=== FILE: README.md ===
# betbot opportunity scanners, modelled in Dafny

betbot watches two prediction-market venues, Kalshi and Polymarket, and looks
for trades worth making. This project models its decision logic: the two
scanner classes `arbitragescanner` and `valuescanner`.

- **Cross-venue arbitrage.** Titles are paired by a keyword matcher. A matched
  pair is an arbitrage when buying YES on one venue and NO on the other costs
  less than the one-dollar payout. After Kalshi's 7% fee on profit and
  Polymarket's flat 0.02 gas, the profit must reach the threshold (2% of the
  cost by default).
- **Internal arbitrage.** YES plus NO on one venue costs less than a dollar.
  Kalshi `get_markets` quotes are whole cents and are divided by 100.
- **Value bets.** The fair value of one side is one dollar minus the other
  side's ask. The edge is the fair value minus the side's own ask. A bet is
  reported when the edge beats the minimum edge (5 cents by default). Kalshi
  also needs a bid on that side.
- **Extreme probabilities.** A market is flagged when its YES ask is above the
  threshold (0.9 by default) or below one minus it.
- **Liquidity filter.** The value bets whose volume or liquidity exceeds 1000.
- **Reports.** Every list is sorted highest first with a stable sort. The
  summaries count the lists.

Modules:

| module | file | contents |
|---|---|---|
| `Markets` | markets.dfy | the market record, `Option`, venues and sides, the fee constants |
| `Sorting` | sorting.dfy | a stable descending sort by a real key, and what "stable" means |
| `TitleMatch` | title_match.dfy | whitespace splitting as Python's `str.split()` does it, and the matcher |
| `ArbitrageScanner` | arbitrage_scanner.dfy | cross-venue and internal arbitrage, and the arbitrage report |
| `ValueScanner` | value_scanner.dfy | value bets, extremes, the liquidity filter, and the value report |
| `Scenarios`, `TitleScenarios` | scenarios.dfy | worked examples on concrete quotes |

How the model represents the source:

- **Records.** A market is one record: id, title, YES/NO asks, YES/NO bids,
  volume and liquidity. Kalshi's `open_interest` goes in the liquidity field.
  A Polymarket `yes_price`/`no_price` goes in the ask fields, and its bids are
  0. For Polymarket, the title field holds the record's `question`. That is
  the text the cross scan lower-cases and matches.
- **Missing values.** A key the source reads with `.get(key, 0)` is the number
  0.0 when absent. Python's truthiness test on a price is `!= 0.0`.
- **Arithmetic.** Prices are exact `real` numbers.
- **Fetches and sorting.** Each fetch becomes an input sequence. Each
  `sorted(..., reverse=True)` becomes `Sorting.SortDesc`. The model proves
  that sort sorted, a permutation of its input, and order-preserving among
  equal keys. It also proves that these three facts determine the output.

## Model

| member | source | states |
|---|---|---|
| `Sorting.SortDesc` | arbitrage_scanner.py:47 | the result is a permutation of the input, non-increasing by the key, and for every key value the elements with that key appear in their input order (Python's `sorted` is stable) |
| `Sorting.StableSortUnique` | arbitrage_scanner.py:266 | any sequence that is sorted descending and keeps each key's elements in input order equals the sort's result, so the three properties pin the output down |
| `TitleMatch.Split` | arbitrage_scanner.py:54-55 | `str.split()` yields only non-empty words that contain no whitespace |
| `TitleMatch.SplitJoin` | arbitrage_scanner.py:54-55 | splitting words joined by single spaces gives back exactly those words |
| `TitleMatch.KeyWordsOfJoin` | arbitrage_scanner.py:54-55 | the filtered word set of a joined title is the set of its words that are not stop words and are longer than two characters |
| `TitleMatch.Lower` | arbitrage_scanner.py:36-39 | lower-casing keeps the length, turns 'A'..'Z' into 'a'..'z', leaves every other character alone, and leaves no ASCII capital behind |
| `TitleMatch.MarketsMatch` | arbitrage_scanner.py:49-62 | no match when either filtered set is empty; otherwise a match iff twice the overlap exceeds the smaller set's size, the integer form of `overlap / min > 0.5` |
| `TitleMatch.HalfRatio` | arbitrage_scanner.py:61-62 | the real quotient `x / m` exceeds 0.5 iff `2x > m` |
| `TitleMatch.MarketsMatchSymmetric` | arbitrage_scanner.py:54-62 | the verdict does not depend on which title comes first |
| `TitleMatch.SameKeyWordsMatch` | arbitrage_scanner.py:58-62 | two titles with the same non-empty filtered set always match |
| `TitleMatch.KeyWordsDropNoise` | arbitrage_scanner.py:52-55 | removing a stop word or a word of at most two characters from a title leaves its filtered set unchanged |
| `TitleMatch.NoiseWordIgnored` | arbitrage_scanner.py:52-62 | removing such a word from either title never changes the match verdict |
| `ArbitrageScanner.ProfitTest` | arbitrage_scanner.py:94-101 | for a positive cost, "cost below a dollar and net profit at least the threshold percentage of the cost" is equivalent to the closed form `cost * (keep + threshold) <= keep - flat` |
| `ArbitrageScanner.CrossStrategy` | arbitrage_scanner.py:94-128 | one strategy is reported iff its combined cost passes the closed-form test with both venues' fees; a reported trade has cost below 1, gross = 1 - cost, fees = 0.07 gross + 0.02, net = gross - fees, and profit and ROI percentages equal to net / cost * 100 and at least the threshold |
| `ArbitrageScanner.CalculateArbitrage` | arbitrage_scanner.py:64-166 | None when any of the four quotes is zero; otherwise strategy 1 (YES Kalshi, NO Polymarket) whenever it qualifies, strategy 2 only when strategy 1 fails and strategy 2 qualifies, None iff both fail; each result has the cross-venue economics and the prices of its strategy |
| `ArbitrageScanner.PairCandidates` | arbitrage_scanner.py:38-45 | for one Kalshi market, every opportunity occurs exactly as many times as there are Polymarket markets whose lower-cased titles match it and that yield it; it is listed iff some such market exists |
| `ArbitrageScanner.YieldsCounted` | arbitrage_scanner.py:38-45 | the number of Polymarket markets that yield `o` is positive iff some Polymarket market yields it |
| `ArbitrageScanner.CrossCandidates` | arbitrage_scanner.py:35-45 | the nested loop lists every opportunity exactly as many times as there are matching pairs that yield it, so at most one entry per pair |
| `ArbitrageScanner.FindCrossPlatformArbitrage` | arbitrage_scanner.py:35-47 | the stable descending sort by profit percentage of the loop's candidates; an opportunity is listed iff some matching pair yields it, and every listed one has the cross-venue economics |
| `ArbitrageScanner.KalshiInternal` | arbitrage_scanner.py:183-220 | reported iff both cent quotes are non-zero and their sum / 100 passes the closed-form test with 93% of the profit kept; prices are the cents / 100, Kalshi takes 7% of the gross profit, no gas |
| `ArbitrageScanner.PolymarketInternal` | arbitrage_scanner.py:225-264 | reported iff both prices are non-zero and their sum passes the closed-form test with the whole profit kept less 0.02 gas; no platform fee |
| `ArbitrageScanner.InternalCandidates` | arbitrage_scanner.py:183-264 | one candidate per qualifying market: its length is the number of qualifying markets, an opportunity is listed iff some market yields it, and each opportunity occurs exactly as many times as there are markets that yield it |
| `ArbitrageScanner.FindInternalArbitrage` | arbitrage_scanner.py:168-266 | the stable descending sort by profit percentage of the candidates; its length is the number of qualifying markets; every entry has its venue's economics |
| `ArbitrageScanner.ScanAllArbitrage` | arbitrage_scanner.py:268-290 | the three lists are the cross-venue scan and the Kalshi and Polymarket internal scans; the total is the sum of the three counts; each count is its list's length; the internal counts equal the numbers of qualifying markets; the cross count is at most the number of pairs; all three lists are sorted |
| `ArbitrageScanner.CentQuotesNeverPair` | arbitrage_scanner.py:70-94 | a Kalshi market whose present asks are at least 1 (whole cents, read without dividing by 100) pairs with no Polymarket market |
| `ArbitrageScanner.CrossScanSilentOnCentQuotes` | arbitrage_scanner.py:70-94 | with Kalshi asks in whole cents, the cross-venue scan reports nothing |
| `ArbitrageScanner.KalshiInternalAtDefault` | arbitrage_scanner.py:184-196 | at the default 2% threshold, a quoted Kalshi market qualifies internally iff its asks total at most 93/95 of a dollar |
| `ArbitrageScanner.NetBelowGross` | arbitrage_scanner.py:190-194 | every reported internal opportunity pays a positive fee, the 7% Kalshi fee on a positive gross profit or the 0.02 Polymarket gas, so its net profit is strictly below its gross profit |
| `ValueScanner.KalshiValueBets` | value_scanner.py:37-120 | nothing unless both asks are non-zero; a bet on a side iff that side has a bid and the shared edge `1 - yes - no` exceeds the minimum; YES before NO; each bet is priced at its side's ask and valued at one minus the other ask, with the 7% fee on the edge and ROI = net / price * 100 |
| `ValueScanner.PolymarketValueBets` | value_scanner.py:129-206 | nothing unless both prices are non-zero; a bet on a side iff the shared edge exceeds the minimum, with no bid gate; YES before NO; net = edge - 0.02; ROI is 0 for a non-positive price |
| `ValueScanner.ValueBetsOnce` | value_scanner.py:42-120 | a market never yields the same bet twice, because its two bets are on different sides |
| `ValueScanner.ValueCandidates` | value_scanner.py:28-120 | the loop's bets are exactly the bets of its markets, each occurring as many times as there are markets yielding it, and at most two per market |
| `ValueScanner.FindMispricedMarkets` | value_scanner.py:18-208 | the stable descending sort by edge percentage of the candidates; every entry is one of some market's bets and has its venue's economics |
| `ValueScanner.ExtremeOf` | value_scanner.py:220-258 | flagged iff the YES ask is further than `threshold - 0.5` from 0.5; the confidence is high YES iff the ask exceeds the threshold, and high NO means it is below one minus the threshold |
| `ValueScanner.ExtremeCandidates` | value_scanner.py:220-258 | the flagged markets, one entry each: its length is the number of flagged markets, an entry is listed iff some market is flagged as it, and each entry occurs exactly as many times as there are markets flagged as it |
| `ValueScanner.FindExtremeProbabilities` | value_scanner.py:210-260 | the stable descending sort by distance from 0.5 of the flagged markets; every entry is further than `threshold - 0.5` from 0.5 |
| `ValueScanner.FilterLiquid` | value_scanner.py:270-273 | an order-preserving subsequence of the bets; each bet with volume or liquidity above the minimum occurs as often as in the input, every other bet not at all |
| `ValueScanner.FilterLiquidKeepsOrder` | value_scanner.py:262-275 | filtering a list sorted by edge leaves it sorted by edge |
| `ValueScanner.FilterLiquidIdempotent` | value_scanner.py:270-273 | filtering a second time changes nothing |
| `ValueScanner.ScanAllValue` | value_scanner.py:277-295 | the value lists are the mispricing scans of each venue, the extreme lists the extremes scans at threshold 0.9, and the liquid lists the value lists filtered at 1000; each summary total is the sum of its two lists' lengths; the liquid lists are subsequences of the value lists, so their total is at most the value total; the extreme total is the number of flagged markets; all lists are sorted |
| `ValueScanner.EdgesAgree` | value_scanner.py:44-46 | every value bet of a market, on either venue and either side, carries the same edge, `1 - yes - no` |
| `ValueScanner.PolymarketBothOrNeither` | value_scanner.py:129-173 | a Polymarket market yields both bets or none |
| `ValueScanner.KalshiBothOrNeither` | value_scanner.py:43-88 | a Kalshi market with bids on both sides yields both bets or none |
| `ValueScanner.ZeroYesFlaggedHighNo` | value_scanner.py:246-253 | a zero (missing) YES price is flagged for any threshold below 1, as high NO when the threshold is non-negative |
| `Scenarios.KalshiInternalExample` | arbitrage_scanner.py:183-196 | 40 and 55 cents cost 0.95; the fee is 0.0035 and the net 0.0465, about 4.89% of the cost; reported at 2% and not at 6% |
| `Scenarios.CrossExample` | arbitrage_scanner.py:94-101 | YES at 0.40 on Kalshi and NO at 0.55 on Polymarket: strategy 1, fees 0.0235, net 0.0265, about 2.79% |
| `Scenarios.ExtremeYesExample` | value_scanner.py:246-253 | a YES price of 0.95 at threshold 0.9 is flagged high YES |
| `Scenarios.ZeroYesExample` | value_scanner.py:226-233 | a zero YES price gives no internal arbitrage and no value bet, but is flagged high NO |
| `TitleScenarios.FedTitlesDoNotMatch` | arbitrage_scanner.py:52-62 | the titles "will the fed raise rates in march" and "fed rate hike march decision" (their words joined by single spaces) share 2 of the smaller set's 4 key words, not more than half, so they do not match |

## Behaviour worth noting

- The titles "will the fed raise rates in march" and "fed rate hike march
  decision" do not match. Their key-word sets share exactly half of the
  smaller set, and the test is `overlap > 0.5`
  (`TitleScenarios.FedTitlesDoNotMatch`).
- The two cross-venue strategies are not independent. `_calculate_arbitrage`
  returns strategy 1 as soon as it qualifies, so strategy 2 is reported only
  when strategy 1 fails.
- A zero YES price is flagged high NO by the extremes scan. There is no guard
  for a missing price, and 0 is below `1 - threshold`
  (`ValueScanner.ZeroYesFlaggedHighNo`).
- The cross-venue fee. `_calculate_arbitrage` defines
  `polymarket_fee_rate = 0.04`, but nothing uses it. The fee actually charged
  is 7% of the gross profit plus 0.02 gas.
- Cents versus fractions. `_calculate_arbitrage` reads Kalshi asks from
  `get_markets` records, where they are whole cents, without the division by
  100 that `find_internal_arbitrage` applies. It is modelled as written, over
  the prices it is given. `ArbitrageScanner.CrossScanSilentOnCentQuotes`
  shows the consequence: with whole-cent quotes, the cross-venue scan can
  never report anything.

## Left out

- Venue clients. kalshi_client.py and polymarket_client.py are HTTP requests,
  rate-limit sleeps and swallowed exceptions; each fetched list is an input
  sequence. kalshi_client.py and polymarket_client.py are not part of this
  model.
- The Polymarket client as written. The scanners call
  `get_simplified_markets(self.time_window_hours)`, but polymarket_client.py
  declares no such parameter and does not parse as written. So every
  Polymarket fetch would fail. The model assumes a client that returns the
  list of simplified records.
- Per-ticker detail fetches. `find_mispriced_markets` and
  `find_extreme_probabilities` fetch `get_market_details` for each Kalshi
  ticker. The model takes the sequence of detail records directly.
- Re-fetching. Every `find_*` call fetches its own snapshot. In
  `scan_all_arbitrage`, the cross scan fetches both venues (arbitrage_scanner.py:31-32)
  and each internal scan fetches its venue again (arbitrage_scanner.py:181, 223).
  In `scan_all_value`, the value scan and the extremes scan each fetch
  (value_scanner.py:26-30, 218-222), and `find_high_liquidity_value` runs
  `find_mispriced_markets` again, which fetches again. `ScanAllArbitrage` and
  `ScanAllValue` give one snapshot per venue to all of their scans, and the
  liquid lists filter the value lists already computed. This is as if every
  fetch returned the same records.
- Fetch limits. The limits of 50 and 20 records belong to the venue APIs.
- The time window. `set_time_window`, the `max_close_ts` computed from the
  current time, and the window passed to the Polymarket client depend on the
  clock and the network.
- Timestamps. `scan_time` and the per-entry `timestamp` fields come from the
  clock.
- Floating point. The model's arithmetic is exact. Python's binary floating
  point can round a sum that is exactly at a threshold to either side.
- Pass-through fields. Titles, questions, token ids, the strategy text and
  the `type` tag are copied through unchanged. The constant `position_size`,
  `max_payout` and `guaranteed_return` fields are also left out, and so are
  the extremes entries' Kalshi `close_time` (value_scanner.py:236) and
  Polymarket `end_date` (value_scanner.py:256). A report entry keeps its
  market id, its prices and its numbers.
- Unknown platforms. A platform string other than "kalshi" or "polymarket"
  makes the `find_*` methods return an empty list. The model's venue is a
  two-valued type, so that case cannot arise.
- TitleMatch.Lower lower-cases ASCII letters only, while Python's
  `str.lower()` covers all of Unicode.
- ArbitrageScanner.CalculateArbitrage, PairCandidates, YieldsCounted,
  CrossCandidates, FindCrossPlatformArbitrage, KalshiInternal,
  PolymarketInternal, InternalCandidates, FindInternalArbitrage,
  ScanAllArbitrage, CentQuotesNeverPair and CrossScanSilentOnCentQuotes
  require non-negative asks. The
  source divides by the total cost without a guard. Only negative quotes can
  make a sum of two non-zero asks zero, and there Python raises
  ZeroDivisionError. Venues never publish negative prices.
- The presentation layer. streamlit_app.py and main.py print, loop, sleep,
  and write files and dashboards. They are not part of this model.

=== FILE: arbitrage_scanner.dfy ===
/**
  `arbitragescanner`: riskless-profit detection across the two venues
  (`find_cross_platform_arbitrage`, `_calculate_arbitrage`) and inside one
  venue (`find_internal_arbitrage`), plus the report of `scan_all_arbitrage`.

  Buying YES and NO of the same event costs `totalCost` and pays exactly one
  dollar, so the trade is an arbitrage when `totalCost < 1` and the profit
  left after fees, as a percentage of the cost, reaches the threshold.
 */
module ArbitrageScanner {

  import opened Markets
  import opened Sorting
  import opened TitleMatch

  /** `min_profit_threshold`: 2% of the cost. */
  const DefaultMinProfitThreshold: real := 0.02

  /** Which venue the YES leg is bought on; the NO leg is bought on the other one. */
  datatype Strategy = YesKalshiNoPolymarket | YesPolymarketNoKalshi

  datatype CrossArb = CrossArb(
    kalshiMarket: string,
    polymarketMarket: string,
    strategy: Strategy,
    kalshiPrice: real,
    polymarketPrice: real,
    totalCost: real,
    grossProfit: real,
    kalshiFee: real,
    polymarketGas: real,
    totalFees: real,
    netProfit: real,
    profitPct: real,
    roiPct: real)

  datatype InternalArb = InternalArb(
    venue: Venue,
    market: string,
    yesCost: real,
    noCost: real,
    totalCost: real,
    grossProfit: real,
    platformFee: real,
    gasFee: real,
    totalFees: real,
    netProfit: real,
    profitPct: real,
    roiPct: real)

  // ---- What a reported opportunity is ----

  /**
    The economics of a reported cross-venue trade: both legs cost less than the
    one-dollar payout, Kalshi takes 7% of the gross profit, Polymarket costs a
    flat gas estimate, and the net profit as a percentage of the cost clears the
    threshold.
   */
  ghost predicate CrossEconomics(o: CrossArb, threshold: real) {
    && 0.0 < o.totalCost < Payout
    && o.totalCost == o.kalshiPrice + o.polymarketPrice
    && o.grossProfit == Payout - o.totalCost
    && o.kalshiFee == KalshiFeeRate * o.grossProfit
    && o.polymarketGas == PolymarketGas
    && o.totalFees == o.kalshiFee + o.polymarketGas
    && o.netProfit == o.grossProfit - o.totalFees
    && o.profitPct == o.netProfit / o.totalCost * 100.0
    && o.roiPct == o.profitPct
    && o.profitPct >= threshold * 100.0
  }

  /** The economics of a reported single-venue trade, with that venue's fee model. */
  ghost predicate InternalEconomics(o: InternalArb, threshold: real) {
    && o.yesCost != 0.0 && o.noCost != 0.0
    && 0.0 < o.totalCost < Payout
    && o.totalCost == o.yesCost + o.noCost
    && o.grossProfit == Payout - o.totalCost
    && (o.venue == Kalshi ==> o.platformFee == KalshiFeeRate * o.grossProfit && o.gasFee == 0.0)
    && (o.venue == Polymarket ==> o.platformFee == 0.0 && o.gasFee == PolymarketGas)
    && o.totalFees == o.platformFee + o.gasFee
    && o.netProfit == o.grossProfit - o.totalFees
    && o.profitPct == o.netProfit / o.totalCost * 100.0
    && o.roiPct == o.profitPct
    && o.profitPct >= threshold * 100.0
  }

  /**
    Closed form of "cost below one dollar and net profit percentage at least the
    threshold" for a trade costing `cost` whose net profit is
    `(1 - cost) * keep - flat`: the cost may be at most `(keep - flat) / (keep + threshold)`.
   */
  ghost predicate CostQualifies(cost: real, keep: real, flat: real, threshold: real) {
    0.0 < cost < Payout && cost * (keep + threshold) <= keep - flat
  }

  /** Cross-venue: Kalshi keeps 93% of the gross profit and Polymarket gas is deducted. */
  ghost predicate CrossQualifies(cost: real, threshold: real) {
    CostQualifies(cost, Payout - KalshiFeeRate, PolymarketGas, threshold)
  }

  /** Kalshi alone: 93% of the gross profit is kept, no gas. */
  ghost predicate KalshiQualifies(cost: real, threshold: real) {
    CostQualifies(cost, Payout - KalshiFeeRate, 0.0, threshold)
  }

  /** Polymarket alone: the whole gross profit minus gas is kept. */
  ghost predicate PolymarketQualifies(cost: real, threshold: real) {
    CostQualifies(cost, Payout, PolymarketGas, threshold)
  }

  /** The percentage test against the closed form, for a positive cost. */
  lemma ProfitTest(cost: real, keep: real, flat: real, threshold: real)
    requires cost > 0.0
    ensures var net := (Payout - cost) * keep - flat;
      (cost < Payout && net / cost * 100.0 >= threshold * 100.0) <==> CostQualifies(cost, keep, flat, threshold)
  {
    var net := (Payout - cost) * keep - flat;
    DivAtLeast(net, cost, threshold);
    assert net / cost * 100.0 >= threshold * 100.0 <==> net / cost >= threshold;
  }

  // ---- Cross-venue arbitrage ----

  /**
    One strategy of `_calculate_arbitrage`: YES on one venue at one price, NO on
    the other at the other price. Reported iff the pair is an arbitrage that
    clears the threshold after both venues' fees.
   */
  function CrossStrategy(k: Market, p: Market, strategy: Strategy, kalshiPrice: real, polymarketPrice: real,
                         threshold: real): (r: Option<CrossArb>)
    requires kalshiPrice > 0.0 && polymarketPrice > 0.0
    ensures r.Some? <==> CrossQualifies(kalshiPrice + polymarketPrice, threshold)
    ensures r.Some? ==> CrossEconomics(r.value, threshold)
    ensures r.Some? ==> r.value.strategy == strategy && r.value.kalshiPrice == kalshiPrice
                        && r.value.polymarketPrice == polymarketPrice
                        && r.value.kalshiMarket == k.id && r.value.polymarketMarket == p.id
  {
    var totalCost := kalshiPrice + polymarketPrice;
    if totalCost < 1.0 then
      var grossProfit := 1.0 - totalCost;
      var kalshiProfitFee := grossProfit * KalshiFeeRate;
      var polymarketGas := PolymarketGas;
      var netProfit := grossProfit - kalshiProfitFee - polymarketGas;
      var profitPct := (netProfit / totalCost) * 100.0;
      ProfitTest(totalCost, Payout - KalshiFeeRate, PolymarketGas, threshold);
      if profitPct >= threshold * 100.0 then
        Some(CrossArb(k.id, p.id, strategy, kalshiPrice, polymarketPrice, totalCost, grossProfit,
                      kalshiProfitFee, polymarketGas, kalshiProfitFee + polymarketGas, netProfit,
                      profitPct, (netProfit / totalCost) * 100.0))
      else None
    else None
  }

  /** All four quotes of a Kalshi/Polymarket pair are present (non-zero). */
  predicate PairQuoted(k: Market, p: Market) {
    k.yesAsk != 0.0 && k.noAsk != 0.0 && p.yesAsk != 0.0 && p.noAsk != 0.0
  }

  /**
    `_calculate_arbitrage`: nothing for a pair with a missing quote; otherwise
    strategy 1 (YES on Kalshi, NO on Polymarket) when it qualifies, and only
    failing that strategy 2 (YES on Polymarket, NO on Kalshi).
    The Kalshi quotes are used exactly as given.
   */
  function CalculateArbitrage(k: Market, p: Market, threshold: real): (r: Option<CrossArb>)
    requires NonNegativeAsks(k) && NonNegativeAsks(p)
    ensures !PairQuoted(k, p) ==> r.None?
    ensures r.None? <==>
      !PairQuoted(k, p)
      || (!CrossQualifies(k.yesAsk + p.noAsk, threshold) && !CrossQualifies(p.yesAsk + k.noAsk, threshold))
    ensures PairQuoted(k, p) && CrossQualifies(k.yesAsk + p.noAsk, threshold) ==>
      r.Some? && r.value.strategy == YesKalshiNoPolymarket
    ensures r.Some? && r.value.strategy == YesPolymarketNoKalshi ==>
      !CrossQualifies(k.yesAsk + p.noAsk, threshold) && CrossQualifies(p.yesAsk + k.noAsk, threshold)
    ensures r.Some? ==> CrossEconomics(r.value, threshold)
                        && r.value.kalshiMarket == k.id && r.value.polymarketMarket == p.id
    ensures r.Some? && r.value.strategy == YesKalshiNoPolymarket ==>
      r.value.kalshiPrice == k.yesAsk && r.value.polymarketPrice == p.noAsk
    ensures r.Some? && r.value.strategy == YesPolymarketNoKalshi ==>
      r.value.kalshiPrice == k.noAsk && r.value.polymarketPrice == p.yesAsk
  {
    if !PairQuoted(k, p) then None
    else
      var first := CrossStrategy(k, p, YesKalshiNoPolymarket, k.yesAsk, p.noAsk, threshold);
      if first.Some? then first
      else CrossStrategy(k, p, YesPolymarketNoKalshi, k.noAsk, p.yesAsk, threshold)
  }

  /** The pair is compared (lower-cased titles match) and yields opportunity `o`. */
  ghost predicate PairYields(k: Market, p: Market, threshold: real, o: CrossArb) {
    && NonNegativeAsks(k) && NonNegativeAsks(p)
    && MarketsMatch(Lower(k.title), Lower(p.title))
    && CalculateArbitrage(k, p, threshold) == Some(o)
  }

  /** Some Polymarket market of `ps` is paired with `k` and yields `o`. */
  ghost predicate MarketYields(k: Market, ps: seq<Market>, threshold: real, o: CrossArb) {
    exists j :: 0 <= j < |ps| && PairYields(k, ps[j], threshold, o)
  }

  /** How many Polymarket markets of `ps` are paired with `k` and yield `o`. */
  ghost function YieldCount(k: Market, ps: seq<Market>, threshold: real, o: CrossArb): nat
    requires NonNegativeAsks(k) && AllNonNegativeAsks(ps)
  {
    if |ps| == 0 then 0
    else (if PairOutcome(k, ps[0], threshold) == Some(o) then 1 else 0) + YieldCount(k, ps[1..], threshold, o)
  }

  /** How many pairs of `ks` and `ps` yield `o`. */
  ghost function CrossYieldCount(ks: seq<Market>, ps: seq<Market>, threshold: real, o: CrossArb): nat
    requires AllNonNegativeAsks(ks) && AllNonNegativeAsks(ps)
  {
    if |ks| == 0 then 0
    else YieldCount(ks[0], ps, threshold, o) + CrossYieldCount(ks[1..], ps, threshold, o)
  }

  /** One iteration of the inner loop: the pair's opportunity when the lower-cased titles match. */
  function PairOutcome(k: Market, p: Market, threshold: real): (r: Option<CrossArb>)
    requires NonNegativeAsks(k) && NonNegativeAsks(p)
  {
    if MarketsMatch(Lower(k.title), Lower(p.title)) then CalculateArbitrage(k, p, threshold) else None
  }

  /** The inner loop of `find_cross_platform_arbitrage` for one Kalshi market. */
  function PairCandidates(k: Market, ps: seq<Market>, threshold: real): (r: seq<CrossArb>)
    requires NonNegativeAsks(k) && AllNonNegativeAsks(ps)
    ensures |r| <= |ps|
    ensures forall o :: o in r <==> MarketYields(k, ps, threshold, o)
    ensures forall o :: multiset(r)[o] == YieldCount(k, ps, threshold, o)
  {
    if |ps| == 0 then []
    else
      var here := PairOutcome(k, ps[0], threshold);
      var rest := PairCandidates(k, ps[1..], threshold);
      var head := if here.Some? then [here.value] else [];
      var r := head + rest;
      forall o ensures multiset(r)[o] == YieldCount(k, ps, threshold, o) {
        assert multiset(r) == multiset(head) + multiset(rest);
      }
      forall o ensures o in r <==> MarketYields(k, ps, threshold, o) {
        assert o in r <==> o in multiset(r);
        YieldsCounted(k, ps, threshold, o);
      }
      r
  }

  /** A pair yields `o` somewhere in `ps` exactly when the count of such pairs is positive. */
  lemma {:induction false} YieldsCounted(k: Market, ps: seq<Market>, threshold: real, o: CrossArb)
    requires NonNegativeAsks(k) && AllNonNegativeAsks(ps)
    ensures YieldCount(k, ps, threshold, o) > 0 <==> MarketYields(k, ps, threshold, o)
  {
    if |ps| > 0 {
      YieldsCounted(k, ps[1..], threshold, o);
      assert forall j :: 1 <= j < |ps| ==> ps[1..][j - 1] == ps[j];
      if MarketYields(k, ps, threshold, o) && !PairYields(k, ps[0], threshold, o) {
        var j :| 0 <= j < |ps| && PairYields(k, ps[j], threshold, o);
        assert ps[1..][j - 1] == ps[j];
      }
    }
  }

  /** Both loops of `find_cross_platform_arbitrage`, Kalshi markets outermost. */
  function CrossCandidates(ks: seq<Market>, ps: seq<Market>, threshold: real): (r: seq<CrossArb>)
    requires AllNonNegativeAsks(ks) && AllNonNegativeAsks(ps)
    ensures |r| <= |ks| * |ps|
    ensures forall o :: o in r <==> exists i :: 0 <= i < |ks| && MarketYields(ks[i], ps, threshold, o)
    ensures forall o :: multiset(r)[o] == CrossYieldCount(ks, ps, threshold, o)
  {
    if |ks| == 0 then []
    else
      var here := PairCandidates(ks[0], ps, threshold);
      var rest := CrossCandidates(ks[1..], ps, threshold);
      forall o ensures o in here + rest <==> exists i :: 0 <= i < |ks| && MarketYields(ks[i], ps, threshold, o) {
        if o in rest {
          var i :| 0 <= i < |ks[1..]| && MarketYields(ks[1..][i], ps, threshold, o);
          assert ks[1..][i] == ks[i + 1];
        }
        if exists i :: 0 <= i < |ks| && MarketYields(ks[i], ps, threshold, o) {
          var i :| 0 <= i < |ks| && MarketYields(ks[i], ps, threshold, o);
          if i > 0 {
            assert ks[1..][i - 1] == ks[i];
          }
        }
      }
      ProductStep(|ks|, |ps|);
      here + rest
  }

  lemma ProductStep(a: nat, b: nat)
    requires a > 0
    ensures a * b == b + (a - 1) * b
  {
  }

  function CrossKey(o: CrossArb): real { o.profitPct }

  /**
    `find_cross_platform_arbitrage`: every matched pair's opportunity, sorted
    by profit percentage, highest first, ties in loop order.
   */
  function FindCrossPlatformArbitrage(ks: seq<Market>, ps: seq<Market>, threshold: real): (r: seq<CrossArb>)
    requires AllNonNegativeAsks(ks) && AllNonNegativeAsks(ps)
    ensures SortedDesc(r, CrossKey)
    ensures multiset(r) == multiset(CrossCandidates(ks, ps, threshold))
    ensures forall k :: WithKey(r, CrossKey, k) == WithKey(CrossCandidates(ks, ps, threshold), CrossKey, k)
    ensures forall o :: o in r <==> exists i :: 0 <= i < |ks| && MarketYields(ks[i], ps, threshold, o)
    ensures forall o :: o in r ==> CrossEconomics(o, threshold)
  {
    var c := CrossCandidates(ks, ps, threshold);
    var r := SortDesc(c, CrossKey);
    assert forall o :: o in r <==> o in c by {
      forall o ensures o in r <==> o in c {
        assert o in r <==> o in multiset(r);
      }
    }
    r
  }

  // ---- Internal arbitrage ----

  /**
    The Kalshi branch of `find_internal_arbitrage`: cent quotes become
    fractions, and Kalshi takes 7% of the gross profit.
   */
  function KalshiInternal(m: Market, threshold: real): (r: Option<InternalArb>)
    requires NonNegativeAsks(m)
    ensures r.Some? <==> m.yesAsk != 0.0 && m.noAsk != 0.0 && KalshiQualifies((m.yesAsk + m.noAsk) / 100.0, threshold)
    ensures r.Some? ==> InternalEconomics(r.value, threshold) && r.value.venue == Kalshi && r.value.market == m.id
                        && r.value.yesCost == m.yesAsk / 100.0 && r.value.noCost == m.noAsk / 100.0
  {
    var yesAsk := if m.yesAsk != 0.0 then m.yesAsk / 100.0 else 0.0;
    var noAsk := if m.noAsk != 0.0 then m.noAsk / 100.0 else 0.0;
    if yesAsk != 0.0 && noAsk != 0.0 then
      var totalCost := yesAsk + noAsk;
      assert totalCost == (m.yesAsk + m.noAsk) / 100.0;
      if totalCost < 1.0 then
        var grossProfit := 1.0 - totalCost;
        var kalshiFee := grossProfit * KalshiFeeRate;
        var netProfit := grossProfit - kalshiFee;
        var profitPct := (netProfit / totalCost) * 100.0;
        ProfitTest(totalCost, Payout - KalshiFeeRate, 0.0, threshold);
        if profitPct >= threshold * 100.0 then
          Some(InternalArb(Kalshi, m.id, yesAsk, noAsk, totalCost, grossProfit, kalshiFee, 0.0, kalshiFee,
                           netProfit, profitPct, (netProfit / totalCost) * 100.0))
        else None
      else None
    else None
  }

  /** The Polymarket branch of `find_internal_arbitrage`: a flat gas fee, no percentage fee. */
  function PolymarketInternal(m: Market, threshold: real): (r: Option<InternalArb>)
    requires NonNegativeAsks(m)
    ensures r.Some? <==> m.yesAsk != 0.0 && m.noAsk != 0.0 && PolymarketQualifies(m.yesAsk + m.noAsk, threshold)
    ensures r.Some? ==> InternalEconomics(r.value, threshold) && r.value.venue == Polymarket && r.value.market == m.id
                        && r.value.yesCost == m.yesAsk && r.value.noCost == m.noAsk
  {
    if m.yesAsk != 0.0 && m.noAsk != 0.0 then
      var totalCost := m.yesAsk + m.noAsk;
      if totalCost < 1.0 then
        var grossProfit := 1.0 - totalCost;
        var gasFee := PolymarketGas;
        var netProfit := grossProfit - gasFee;
        var profitPct := (netProfit / totalCost) * 100.0;
        ProfitTest(totalCost, Payout, PolymarketGas, threshold);
        if profitPct >= threshold * 100.0 then
          Some(InternalArb(Polymarket, m.id, m.yesAsk, m.noAsk, totalCost, grossProfit, 0.0, gasFee, gasFee,
                           netProfit, profitPct, (netProfit / totalCost) * 100.0))
        else None
      else None
    else None
  }

  function InternalOf(venue: Venue, m: Market, threshold: real): Option<InternalArb>
    requires NonNegativeAsks(m)
  {
    match venue
    case Kalshi => KalshiInternal(m, threshold)
    case Polymarket => PolymarketInternal(m, threshold)
  }

  /** Number of markets of `ms` that carry an internal arbitrage. */
  ghost function QualifyingCount(venue: Venue, ms: seq<Market>, threshold: real): nat
    requires AllNonNegativeAsks(ms)
  {
    if |ms| == 0 then 0
    else (if InternalOf(venue, ms[0], threshold).Some? then 1 else 0) + QualifyingCount(venue, ms[1..], threshold)
  }

  /** How many markets of `ms` carry the internal arbitrage `o`. */
  ghost function InternalCount(venue: Venue, ms: seq<Market>, threshold: real, o: InternalArb): nat
    requires AllNonNegativeAsks(ms)
  {
    if |ms| == 0 then 0
    else (if InternalOf(venue, ms[0], threshold) == Some(o) then 1 else 0) + InternalCount(venue, ms[1..], threshold, o)
  }

  /** The loop of `find_internal_arbitrage`: one candidate per qualifying market, in market order. */
  function InternalCandidates(venue: Venue, ms: seq<Market>, threshold: real): (r: seq<InternalArb>)
    requires AllNonNegativeAsks(ms)
    ensures |r| == QualifyingCount(venue, ms, threshold)
    ensures forall o :: o in r <==> exists i :: 0 <= i < |ms| && InternalOf(venue, ms[i], threshold) == Some(o)
    ensures forall o :: multiset(r)[o] == InternalCount(venue, ms, threshold, o)
  {
    if |ms| == 0 then []
    else
      var here := InternalOf(venue, ms[0], threshold);
      var rest := InternalCandidates(venue, ms[1..], threshold);
      var head := if here.Some? then [here.value] else [];
      var r := head + rest;
      assert forall o :: (exists i :: 0 <= i < |ms[1..]| && InternalOf(venue, ms[1..][i], threshold) == Some(o))
                     <==> (exists i :: 1 <= i < |ms| && InternalOf(venue, ms[i], threshold) == Some(o)) by {
        forall i | 1 <= i < |ms| ensures ms[1..][i - 1] == ms[i] { }
      }
      forall o ensures multiset(r)[o] == InternalCount(venue, ms, threshold, o) {
        assert multiset(r) == multiset(head) + multiset(rest);
      }
      r
  }

  function InternalKey(o: InternalArb): real { o.profitPct }

  /**
    `find_internal_arbitrage(platform)`: the qualifying markets' opportunities,
    sorted by profit percentage, highest first, ties in market order.
   */
  function FindInternalArbitrage(venue: Venue, ms: seq<Market>, threshold: real): (r: seq<InternalArb>)
    requires AllNonNegativeAsks(ms)
    ensures SortedDesc(r, InternalKey)
    ensures multiset(r) == multiset(InternalCandidates(venue, ms, threshold))
    ensures forall k :: WithKey(r, InternalKey, k) == WithKey(InternalCandidates(venue, ms, threshold), InternalKey, k)
    ensures |r| == QualifyingCount(venue, ms, threshold)
    ensures forall o :: o in r <==> exists i :: 0 <= i < |ms| && InternalOf(venue, ms[i], threshold) == Some(o)
    ensures forall o :: o in r ==> InternalEconomics(o, threshold) && o.venue == venue
  {
    var c := InternalCandidates(venue, ms, threshold);
    var r := SortDesc(c, InternalKey);
    forall o ensures o in r <==> o in c {
      assert o in r <==> o in multiset(r);
    }
    forall o | o in r ensures InternalEconomics(o, threshold) && o.venue == venue {
      var i :| 0 <= i < |ms| && InternalOf(venue, ms[i], threshold) == Some(o);
    }
    r
  }

  // ---- The report ----

  datatype ArbSummary = ArbSummary(
    totalOpportunities: nat,
    crossPlatformCount: nat,
    kalshiInternalCount: nat,
    polymarketInternalCount: nat)

  datatype ArbReport = ArbReport(
    crossPlatform: seq<CrossArb>,
    kalshiInternal: seq<InternalArb>,
    polymarketInternal: seq<InternalArb>,
    summary: ArbSummary)

  /**
    `scan_all_arbitrage` over one snapshot of each venue: Kalshi records as
    `get_markets` returns them (asks in cents), Polymarket simplified records.
   */
  function ScanAllArbitrage(kalshiMarkets: seq<Market>, polymarketMarkets: seq<Market>, threshold: real): (r: ArbReport)
    requires AllNonNegativeAsks(kalshiMarkets) && AllNonNegativeAsks(polymarketMarkets)
    ensures r.crossPlatform == FindCrossPlatformArbitrage(kalshiMarkets, polymarketMarkets, threshold)
    ensures r.kalshiInternal == FindInternalArbitrage(Kalshi, kalshiMarkets, threshold)
    ensures r.polymarketInternal == FindInternalArbitrage(Polymarket, polymarketMarkets, threshold)
    ensures r.summary.totalOpportunities ==
      r.summary.crossPlatformCount + r.summary.kalshiInternalCount + r.summary.polymarketInternalCount
    ensures r.summary.crossPlatformCount == |r.crossPlatform|
    ensures r.summary.kalshiInternalCount == |r.kalshiInternal| == QualifyingCount(Kalshi, kalshiMarkets, threshold)
    ensures r.summary.polymarketInternalCount == |r.polymarketInternal|
                                              == QualifyingCount(Polymarket, polymarketMarkets, threshold)
    ensures r.summary.crossPlatformCount <= |kalshiMarkets| * |polymarketMarkets|
    ensures SortedDesc(r.crossPlatform, CrossKey) && SortedDesc(r.kalshiInternal, InternalKey)
            && SortedDesc(r.polymarketInternal, InternalKey)
  {
    var cross := FindCrossPlatformArbitrage(kalshiMarkets, polymarketMarkets, threshold);
    var kalshi := FindInternalArbitrage(Kalshi, kalshiMarkets, threshold);
    var poly := FindInternalArbitrage(Polymarket, polymarketMarkets, threshold);
    ArbReport(cross, kalshi, poly,
              ArbSummary(|cross| + |kalshi| + |poly|, |cross|, |kalshi|, |poly|))
  }

  // ---- Properties relating several calls ----

  /**
    The cross scan reads Kalshi asks straight from `get_markets`, where they are
    whole cents. With every present Kalshi ask at least one cent, each strategy
    costs at least one dollar, so the cross scan never reports anything.
   */
  lemma {:induction false} CrossScanSilentOnCentQuotes(ks: seq<Market>, ps: seq<Market>, threshold: real)
    requires AllNonNegativeAsks(ks) && AllNonNegativeAsks(ps)
    requires forall i :: 0 <= i < |ks| ==>
      (ks[i].yesAsk == 0.0 || ks[i].yesAsk >= 1.0) && (ks[i].noAsk == 0.0 || ks[i].noAsk >= 1.0)
    ensures FindCrossPlatformArbitrage(ks, ps, threshold) == []
  {
    if |ks| > 0 {
      CentQuotesNeverPair(ks[0], ps, threshold);
      CrossScanSilentOnCentQuotes(ks[1..], ps, threshold);
      assert CrossCandidates(ks, ps, threshold) == [];
    }
  }

  /** One Kalshi market quoted in whole cents pairs with no Polymarket market. */
  lemma {:induction false} CentQuotesNeverPair(k: Market, ps: seq<Market>, threshold: real)
    requires NonNegativeAsks(k) && AllNonNegativeAsks(ps)
    requires (k.yesAsk == 0.0 || k.yesAsk >= 1.0) && (k.noAsk == 0.0 || k.noAsk >= 1.0)
    ensures PairCandidates(k, ps, threshold) == []
  {
    if |ps| > 0 {
      var p := ps[0];
      if PairQuoted(k, p) {
        assert k.yesAsk + p.noAsk >= 1.0 && p.yesAsk + k.noAsk >= 1.0;
      }
      CentQuotesNeverPair(k, ps[1..], threshold);
    }
  }

  /**
    Both directions of the closed form at the default 2% threshold: a Kalshi
    market qualifies internally exactly when its two asks total at most
    93/95 of a dollar.
   */
  lemma KalshiInternalAtDefault(m: Market)
    requires NonNegativeAsks(m) && m.yesAsk != 0.0 && m.noAsk != 0.0
    ensures KalshiInternal(m, DefaultMinProfitThreshold).Some? <==> (m.yesAsk + m.noAsk) / 100.0 <= 0.93 / 0.95
  {
  }

  /** Every reported internal trade pays a fee, so its net profit is strictly below its gross profit. */
  lemma NetBelowGross(o: InternalArb, threshold: real)
    requires InternalEconomics(o, threshold)
    ensures o.totalFees > 0.0
    ensures o.netProfit < o.grossProfit
  {
  }
}

=== FILE: markets.dfy ===
/**
  The normalized market snapshot the scanners consume, the small wrapper types
  shared by both scanners, and the fixed fee policy of the two venues.

  Every field the source reads with `dict.get(key, 0)` is a plain number here;
  an absent key is the value 0.0, which the scanners treat as "unquoted".
 */
module Markets {

  datatype Option<T> = None | Some(value: T)

  /** The two venues: Kalshi (percentage fee on profit) and Polymarket (flat gas fee). */
  datatype Venue = Kalshi | Polymarket

  /** The side of a binary market a bet buys. */
  datatype Side = Yes | No

  /**
    One market record as a venue adapter hands it over.
    - Kalshi `get_markets` records carry asks in cents (0..100);
      Kalshi `get_market_details` records carry asks and bids as fractions,
      and `liquidity` holds the open interest.
    - Polymarket records carry `yes_price`/`no_price` as fractions in
      `yesAsk`/`noAsk`, their `question` in `title`, and have no bids (both 0.0).
   */
  datatype Market = Market(
    id: string,
    title: string,
    yesAsk: real,
    noAsk: real,
    yesBid: real,
    noBid: real,
    volume: real,
    liquidity: real)

  /** Quotes are never negative; a venue publishes prices in [0, 1] (or 0..100 cents). */
  predicate NonNegativeAsks(m: Market) {
    m.yesAsk >= 0.0 && m.noAsk >= 0.0
  }

  predicate AllNonNegativeAsks(ms: seq<Market>) {
    forall i :: 0 <= i < |ms| ==> NonNegativeAsks(ms[i])
  }

  /** Kalshi charges 7% of the profit, never of the notional. */
  const KalshiFeeRate: real := 0.07

  /** Polymarket is charged a flat estimated gas cost per trade, in dollars. */
  const PolymarketGas: real := 0.02

  /** Every binary contract pays out exactly one dollar. */
  const Payout: real := 1.0

  function Abs(x: real): (r: real)
    ensures r >= 0.0
    ensures r == x || r == -x
  {
    if x < 0.0 then -x else x
  }

  /** Comparing a quotient with a bound, for a positive divisor. */
  lemma DivGreater(a: real, b: real, c: real)
    requires b > 0.0
    ensures a / b > c <==> a > c * b
  {
  }

  lemma DivAtLeast(a: real, b: real, c: real)
    requires b > 0.0
    ensures a / b >= c <==> a >= c * b
  {
  }
}

=== FILE: scenarios.dfy ===
/**
  Worked examples of the scanners on concrete quotes, including two cases
  worth noting: a market with a zero YES price is flagged as near-certain NO,
  and two titles sharing exactly half their key words do not match.
 */
module Scenarios {

  import opened Markets
  import opened ArbitrageScanner
  import opened ValueScanner

  /** A Kalshi `get_markets` record: asks in cents. */
  function KalshiRecord(yesCents: real, noCents: real): Market {
    Market("KX-FED", "Fed raises rates in March", yesCents, noCents, 0.0, 0.0, 0.0, 0.0)
  }

  /**
    YES at 40 cents and NO at 55 cents on Kalshi: 95 cents buys a dollar,
    Kalshi keeps 7% of the 5 cents, and the 4.65 cents left are about 4.89% of
    the cost, enough at the 2% threshold and not at 6%.
   */
  lemma KalshiInternalExample()
    ensures var r := KalshiInternal(KalshiRecord(40.0, 55.0), 0.02);
      && r.Some?
      && r.value.totalCost == 0.95 && r.value.grossProfit == 0.05
      && r.value.platformFee == 0.0035 && r.value.netProfit == 0.0465
      && 4.89 < r.value.profitPct < 4.9
    ensures KalshiInternal(KalshiRecord(40.0, 55.0), 0.06).None?
  {
  }

  /**
    YES at 0.40 on Kalshi and NO at 0.55 on Polymarket: strategy 1 pays both
    fees, 0.0035 to Kalshi and 0.02 gas, leaving 0.0265, about 2.79% of the cost.
   */
  lemma CrossExample()
    ensures var k := Market("KX-FED", "Fed raises rates in March", 0.40, 0.62, 0.0, 0.0, 0.0, 0.0);
      var p := Market("0xfed", "Fed raises rates in March", 0.45, 0.55, 0.0, 0.0, 0.0, 0.0);
      var r := CalculateArbitrage(k, p, DefaultMinProfitThreshold);
      && r.Some? && r.value.strategy == YesKalshiNoPolymarket
      && r.value.totalCost == 0.95 && r.value.totalFees == 0.0235 && r.value.netProfit == 0.0265
      && 2.78 < r.value.profitPct < 2.79
  {
  }

  /** A YES price of 0.95 at threshold 0.9 is flagged as near-certain YES. */
  lemma ExtremeYesExample()
    ensures var m := Market("0xabc", "Sun rises tomorrow", 0.95, 0.05, 0.0, 0.0, 0.0, 0.0);
      var r := ExtremeOf(Polymarket, m, DefaultExtremeThreshold);
      r.Some? && r.value.confidence == HighYes
  {
  }

  /**
    A zero YES price means "unquoted": no internal arbitrage and no value bet
    on either venue. The extreme flagger has no such guard and reports the
    market as near-certain NO.
   */
  lemma ZeroYesExample(venue: Venue)
    ensures var m := Market("0xzero", "Unquoted market", 0.0, 0.5, 0.0, 0.0, 0.0, 0.0);
      && KalshiInternal(m, DefaultMinProfitThreshold).None?
      && PolymarketInternal(m, DefaultMinProfitThreshold).None?
      && ValueBetsOf(venue, m, DefaultMinEdge) == []
      && ExtremeOf(venue, m, DefaultExtremeThreshold) == Some(Extreme(venue, "0xzero", 0.0, HighNo, 0.0, 0.0))
  {
  }
}

/** The title matcher on two Fed titles that share exactly half of the smaller key set. */
module TitleScenarios {

  import opened TitleMatch

  /** The words of "will the fed raise rates in march". */
  function FedRaiseWords(): seq<string> { ["will", "the", "fed", "raise", "rates", "in", "march"] }

  /** The words of "fed rate hike march decision". */
  function FedHikeWords(): seq<string> { ["fed", "rate", "hike", "march", "decision"] }

  lemma FedRaiseAllWords()
    ensures AllWords(FedRaiseWords())
  {
  }

  lemma FedHikeAllWords()
    ensures AllWords(FedHikeWords())
  {
  }

  lemma FedRaiseKeySet()
    ensures (set w | w in FedRaiseWords() && IsKeyWord(w)) == {"fed", "raise", "rates", "march"}
  {
  }

  lemma FedHikeKeySet()
    ensures (set w | w in FedHikeWords() && IsKeyWord(w)) == {"fed", "rate", "hike", "march", "decision"}
  {
  }

  lemma FedKeySetsOverlap()
    ensures var k1: set<string> := {"fed", "raise", "rates", "march"};
      var k2: set<string> := {"fed", "rate", "hike", "march", "decision"};
      |k1| == 4 && |k2| == 5 && |k1 * k2| == 2
  {
    var k1: set<string> := {"fed", "raise", "rates", "march"};
    var k2: set<string> := {"fed", "rate", "hike", "march", "decision"};
    assert k1 * k2 == {"fed", "march"};
  }

  /**
    "will the fed raise rates in march" and "fed rate hike march decision"
    keep {fed, raise, rates, march} and {fed, rate, hike, march, decision};
    they share two words, exactly half of the smaller set, which is not more
    than half: the titles do not match.
   */
  lemma FedTitlesDoNotMatch()
    ensures !MarketsMatch(Join(FedRaiseWords()), Join(FedHikeWords()))
  {
    FedRaiseAllWords();
    FedHikeAllWords();
    KeyWordsOfJoin(FedRaiseWords());
    KeyWordsOfJoin(FedHikeWords());
    FedRaiseKeySet();
    FedHikeKeySet();
    FedKeySetsOverlap();
  }
}

=== FILE: sorting.dfy ===
/**
  Python's `sorted(xs, key=k, reverse=True)`: a stable sort into non-increasing
  key order. Stability survives `reverse=True`, so elements with equal keys
  keep their input order. Modelled as an insertion sort over sequences.
 */
module Sorting {

  /** Keys never increase from left to right. */
  ghost predicate SortedDesc<T>(s: seq<T>, key: T -> real) {
    forall i, j :: 0 <= i < j < |s| ==> key(s[i]) >= key(s[j])
  }

  /** The elements of `s` whose key is `k`, in their order in `s`. */
  ghost function WithKey<T>(s: seq<T>, key: T -> real, k: real): seq<T> {
    if |s| == 0 then []
    else (if key(s[0]) == k then [s[0]] else []) + WithKey(s[1..], key, k)
  }

  /**
    Puts `x` in front of the first element whose key is not larger than its own,
    so `x` precedes every element of `s` that has the same key.
   */
  function Insert<T>(x: T, s: seq<T>, key: T -> real): (r: seq<T>)
    ensures |r| == |s| + 1
    ensures multiset(r) == multiset(s) + multiset{x}
  {
    if |s| == 0 || key(s[0]) <= key(x) then [x] + s
    else
      assert s == [s[0]] + s[1..];
      [s[0]] + Insert(x, s[1..], key)
  }

  lemma {:induction false} InsertSorted<T>(x: T, s: seq<T>, key: T -> real)
    requires SortedDesc(s, key)
    ensures SortedDesc(Insert(x, s, key), key)
  {
    if |s| == 0 || key(s[0]) <= key(x) {
    } else {
      SortedTail(s, key);
      InsertSorted(x, s[1..], key);
      var t := Insert(x, s[1..], key);
      // every element of t is x or an element of s[1..], all bounded by key(s[0])
      forall i | 0 <= i < |t| ensures key(t[i]) <= key(s[0]) {
        assert t[i] in multiset(t);
        assert t[i] == x || t[i] in multiset(s[1..]);
        if t[i] != x {
          var j :| 0 <= j < |s[1..]| && s[1..][j] == t[i];
          assert s[1..][j] == s[j + 1];
        }
      }
    }
  }

  /** `x` lands in front of every element of `s` that shares its key. */
  lemma {:induction false} InsertWithKey<T>(x: T, s: seq<T>, key: T -> real, k: real)
    ensures WithKey(Insert(x, s, key), key, k) ==
      (if key(x) == k then [x] + WithKey(s, key, k) else WithKey(s, key, k))
  {
    if |s| == 0 || key(s[0]) <= key(x) {
      assert ([x] + s)[1..] == s;
    } else {
      var t := Insert(x, s[1..], key);
      var r := [s[0]] + t;
      assert r[1..] == t;
      InsertWithKey(x, s[1..], key, k);
      assert WithKey(s, key, k) == (if key(s[0]) == k then [s[0]] else []) + WithKey(s[1..], key, k);
    }
  }

  /**
    The stable descending sort: ordered by key, a permutation of the input, and
    for every key the elements carrying it appear in input order.
   */
  function SortDesc<T>(s: seq<T>, key: T -> real): (r: seq<T>)
    ensures |r| == |s|
    ensures multiset(r) == multiset(s)
    ensures SortedDesc(r, key)
    ensures forall k :: WithKey(r, key, k) == WithKey(s, key, k)
  {
    if |s| == 0 then []
    else
      assert s == [s[0]] + s[1..];
      var t := SortDesc(s[1..], key);
      InsertSorted(s[0], t, key);
      assert forall k :: WithKey(Insert(s[0], t, key), key, k) == WithKey(s, key, k) by {
        forall k ensures WithKey(Insert(s[0], t, key), key, k) == WithKey(s, key, k) {
          InsertWithKey(s[0], t, key, k);
        }
      }
      Insert(s[0], t, key)
  }

  /** A sorted sequence whose equal-key runs match those of `s` is `SortDesc(s)` itself. */
  lemma {:induction false} StableSortUnique<T>(s: seq<T>, r: seq<T>, key: T -> real)
    requires SortedDesc(r, key)
    requires forall k :: WithKey(r, key, k) == WithKey(s, key, k)
    ensures r == SortDesc(s, key)
  {
    var t := SortDesc(s, key);
    forall k ensures WithKey(r, key, k) == WithKey(t, key, k) {
    }
    SortedRunsDetermine(r, t, key);
  }

  /** Two sorted sequences with the same equal-key runs are equal. */
  lemma {:induction false} SortedRunsDetermine<T>(a: seq<T>, b: seq<T>, key: T -> real)
    requires SortedDesc(a, key) && SortedDesc(b, key)
    requires forall k :: WithKey(a, key, k) == WithKey(b, key, k)
    ensures a == b
    decreases |a| + |b|
  {
    if |a| == 0 || |b| == 0 {
      // a head element of either side would show up among the other's runs
      if |a| != 0 {
        HeadRunNonEmpty(a, key);
        assert false;
      } else if |b| != 0 {
        HeadRunNonEmpty(b, key);
        assert false;
      }
    } else {
      var ka, kb := key(a[0]), key(b[0]);
      // The largest key comes first in both sequences.
      if ka != kb {
        if ka > kb {
          MaxKeyAbsent(b, key, ka);
        } else {
          MaxKeyAbsent(a, key, kb);
        }
        assert false;
      }
      assert WithKey(a, key, ka) == [a[0]] + WithKey(a[1..], key, ka);
      assert WithKey(b, key, ka) == [b[0]] + WithKey(b[1..], key, ka);
      assert WithKey(a, key, ka) == WithKey(b, key, ka);
      assert a[0] == WithKey(a, key, ka)[0] == b[0];
      forall k ensures WithKey(a[1..], key, k) == WithKey(b[1..], key, k) {
        var p := if ka == k then [a[0]] else [];
        assert WithKey(a, key, k) == WithKey(b, key, k);
        assert WithKey(a, key, k) == p + WithKey(a[1..], key, k);
        assert WithKey(b, key, k) == p + WithKey(b[1..], key, k);
        assert WithKey(a[1..], key, k) == WithKey(a, key, k)[|p|..];
        assert WithKey(b[1..], key, k) == WithKey(b, key, k)[|p|..];
      }
      SortedTail(a, key);
      SortedTail(b, key);
      SortedRunsDetermine(a[1..], b[1..], key);
      assert a == [a[0]] + a[1..];
      assert b == [b[0]] + b[1..];
    }
  }

  lemma HeadRunNonEmpty<T>(s: seq<T>, key: T -> real)
    requires |s| > 0
    ensures WithKey(s, key, key(s[0])) != []
  {
  }

  lemma SortedTail<T>(s: seq<T>, key: T -> real)
    requires |s| > 0 && SortedDesc(s, key)
    ensures SortedDesc(s[1..], key)
  {
  }

  /** In a sorted sequence whose head key is below `k`, no element has key `k`. */
  lemma {:induction false} MaxKeyAbsent<T>(s: seq<T>, key: T -> real, k: real)
    requires |s| > 0 && SortedDesc(s, key) && key(s[0]) < k
    ensures WithKey(s, key, k) == []
  {
    if |s| > 1 {
      SortedTail(s, key);
      assert key(s[1]) <= key(s[0]);
      assert s[1..][0] == s[1];
      MaxKeyAbsent(s[1..], key, k);
    } else {
      assert s[1..] == [];
    }
  }
}

=== FILE: title_match.dfy ===
/**
  The cross-venue title matcher: `arbitragescanner._markets_match` and the
  lower-casing its caller applies to both titles first.

  A title is split on whitespace the way Python's `str.split()` does (maximal
  runs of non-whitespace characters, no empty words), words that are stop
  words or at most two characters long are dropped, and two titles match when
  their remaining word sets overlap in more than half of the smaller set.
 */
module TitleMatch {

  import opened Markets

  /** The characters Python's `str.split()` with no argument treats as separators. */
  predicate IsSpace(c: char) {
    var n := c as int;
    (9 <= n <= 13) || (28 <= n <= 32) || n == 0x85 || n == 0xA0 || n == 0x1680
    || (0x2000 <= n <= 0x200A) || n == 0x2028 || n == 0x2029 || n == 0x202F
    || n == 0x205F || n == 0x3000
  }

  /** A word as `str.split()` yields it: non-empty, with no separator inside. */
  predicate IsWord(w: string) {
    |w| > 0 && forall i :: 0 <= i < |w| ==> !IsSpace(w[i])
  }

  /** ASCII lower-casing of one character. */
  function LowerChar(c: char): char {
    if 'A' <= c <= 'Z' then (c as int + 32) as char else c
  }

  /** `str.lower()` on ASCII: 'A'..'Z' become 'a'..'z', every other character is kept. */
  function Lower(s: string): (r: string)
    ensures |r| == |s|
    ensures forall i :: 0 <= i < |s| ==> r[i] == if 'A' <= s[i] <= 'Z' then (s[i] as int + 32) as char else s[i]
    ensures forall i :: 0 <= i < |s| ==> !('A' <= r[i] <= 'Z')
  {
    seq(|s|, i requires 0 <= i < |s| => LowerChar(s[i]))
  }

  /** Length of the run of separators at the front of `s`. */
  function SpaceRun(s: string): (n: nat)
    ensures n <= |s|
    ensures forall i :: 0 <= i < n ==> IsSpace(s[i])
    ensures n < |s| ==> !IsSpace(s[n])
  {
    if |s| == 0 || !IsSpace(s[0]) then 0 else 1 + SpaceRun(s[1..])
  }

  /** Length of the run of non-separators at the front of `s`. */
  function WordRun(s: string): (n: nat)
    ensures n <= |s|
    ensures forall i :: 0 <= i < n ==> !IsSpace(s[i])
    ensures n < |s| ==> IsSpace(s[n])
  {
    if |s| == 0 || IsSpace(s[0]) then 0 else 1 + WordRun(s[1..])
  }

  /** Python's `str.split()`: the maximal runs of non-separators, left to right. */
  function Split(s: string): (ws: seq<string>)
    ensures forall i :: 0 <= i < |ws| ==> IsWord(ws[i])
    decreases |s|
  {
    var a := SpaceRun(s);
    if a == |s| then []
    else
      var t := s[a..];
      var n := WordRun(t);
      [t[..n]] + Split(t[n..])
  }

  /** Words joined by single spaces: the inverse of `Split` on well-formed word lists. */
  function Join(ws: seq<string>): string {
    if |ws| == 0 then ""
    else if |ws| == 1 then ws[0]
    else ws[0] + " " + Join(ws[1..])
  }

  /** The stop words the matcher ignores. */
  const SkipWords: set<string> := {"will", "the", "be", "a", "an", "in", "on", "at", "to", "for"}

  /** A word that takes part in matching: not a stop word and longer than two characters. */
  predicate IsKeyWord(w: string) {
    w !in SkipWords && |w| > 2
  }

  /** The filtered word set of a title (`words1`/`words2` in the source). */
  function KeyWords(title: string): set<string> {
    set w | w in Split(title) && IsKeyWord(w)
  }

  function Min(a: nat, b: nat): nat {
    if a <= b then a else b
  }

  /**
    `_markets_match`: titles match iff both filtered sets are non-empty and
    their overlap, relative to the smaller set, exceeds one half.
   */
  function MarketsMatch(title1: string, title2: string): (r: bool)
    ensures r ==> KeyWords(title1) != {} && KeyWords(title2) != {}
    ensures r <==>
      var w1, w2 := KeyWords(title1), KeyWords(title2);
      w1 != {} && w2 != {} && 2 * |w1 * w2| > Min(|w1|, |w2|)
  {
    var words1 := KeyWords(title1);
    var words2 := KeyWords(title2);
    if words1 == {} || words2 == {} then false
    else
      var overlap := (|words1 * words2| as real) / (Min(|words1|, |words2|) as real);
      HalfRatio(|words1 * words2|, Min(|words1|, |words2|));
      overlap > 0.5
  }

  lemma HalfRatio(x: nat, m: nat)
    requires m > 0
    ensures (x as real) / (m as real) > 0.5 <==> 2 * x > m
  {
    DivGreater(x as real, m as real, 0.5);
  }

  /** The matcher does not care which title comes first. */
  lemma MarketsMatchSymmetric(title1: string, title2: string)
    ensures MarketsMatch(title1, title2) == MarketsMatch(title2, title1)
  {
    assert KeyWords(title1) * KeyWords(title2) == KeyWords(title2) * KeyWords(title1);
  }

  /** Two titles with the same non-empty filtered word set always match. */
  lemma SameKeyWordsMatch(title1: string, title2: string)
    requires KeyWords(title1) == KeyWords(title2) != {}
    ensures MarketsMatch(title1, title2)
  {
    var w := KeyWords(title1);
    assert w * w == w;
  }

  // ---- Split and Join ----

  lemma {:induction false} WordRunOfWord(w: string, rest: string)
    requires IsWord(w)
    requires |rest| == 0 || IsSpace(rest[0])
    ensures WordRun(w + rest) == |w|
    decreases |w|
  {
    assert (w + rest)[0] == w[0];
    if |w| > 1 {
      assert (w + rest)[1..] == w[1..] + rest;
      WordRunOfWord(w[1..], rest);
    } else {
      assert (w + rest)[1..] == rest;
    }
  }

  /** A leading separator is skipped by `Split`. */
  lemma SplitSkipsSpace(c: char, s: string)
    requires IsSpace(c)
    ensures Split([c] + s) == Split(s)
  {
  }

  /** A word followed by a separator (or nothing) is split off as the first word. */
  lemma SplitLeadingWord(w: string, rest: string)
    requires IsWord(w)
    requires |rest| == 0 || IsSpace(rest[0])
    ensures Split(w + rest) == [w] + Split(rest)
  {
    var s := w + rest;
    assert s[0] == w[0];
    assert SpaceRun(s) == 0;
    assert s[0..] == s;
    WordRunOfWord(w, rest);
    assert s[..|w|] == w;
    assert s[|w|..] == rest;
  }

  /** Putting one more word in front of a joined title puts it in front of the split. */
  lemma SplitJoinCons(ws: seq<string>)
    requires |ws| > 1 && IsWord(ws[0])
    requires Split(Join(ws[1..])) == ws[1..]
    ensures Split(Join(ws)) == ws
  {
    var tail := Join(ws[1..]);
    assert Join(ws) == ws[0] + ([' '] + tail);
    SplitLeadingWord(ws[0], [' '] + tail);
    SplitSkipsSpace(' ', tail);
    assert ws == [ws[0]] + ws[1..];
  }

  /** Splitting words joined by single spaces gives the words back. */
  lemma {:induction false} SplitJoin(ws: seq<string>)
    requires AllWords(ws)
    ensures Split(Join(ws)) == ws
  {
    if |ws| == 1 {
      SplitLeadingWord(ws[0], "");
      assert ws[0] + "" == ws[0];
    } else if |ws| > 1 {
      SplitJoin(ws[1..]);
      SplitJoinCons(ws);
    }
  }

  /** The filtered set of a joined title is the set of its key words. */
  lemma KeyWordsOfJoin(ws: seq<string>)
    requires AllWords(ws)
    ensures KeyWords(Join(ws)) == set w | w in ws && IsKeyWord(w)
  {
    SplitJoin(ws);
  }

  predicate AllWords(ws: seq<string>) {
    forall i :: 0 <= i < |ws| ==> IsWord(ws[i])
  }

  lemma AllWordsConcat(a: seq<string>, b: seq<string>)
    requires AllWords(a) && AllWords(b)
    ensures AllWords(a + b)
  {
  }

  lemma KeySetDropsNoise(before: seq<string>, noise: string, after: seq<string>)
    requires !IsKeyWord(noise)
    ensures (set w | w in before + [noise] + after && IsKeyWord(w))
         == (set w | w in before + after && IsKeyWord(w))
  {
  }

  /** Dropping a stop word or a short word from a title leaves its filtered set unchanged. */
  lemma KeyWordsDropNoise(before: seq<string>, noise: string, after: seq<string>)
    requires AllWords(before) && AllWords(after)
    requires IsWord(noise) && !IsKeyWord(noise)
    ensures KeyWords(Join(before + [noise] + after)) == KeyWords(Join(before + after))
  {
    AllWordsConcat(before, [noise]);
    AllWordsConcat(before + [noise], after);
    AllWordsConcat(before, after);
    KeyWordsOfJoin(before + [noise] + after);
    KeyWordsOfJoin(before + after);
    KeySetDropsNoise(before, noise, after);
  }

  /**
    A stop word or a word of at most two characters never affects the match:
    dropping it from either title leaves the verdict unchanged.
   */
  lemma NoiseWordIgnored(before: seq<string>, noise: string, after: seq<string>, other: string)
    requires AllWords(before) && AllWords(after)
    requires IsWord(noise) && !IsKeyWord(noise)
    ensures MarketsMatch(Join(before + [noise] + after), other) == MarketsMatch(Join(before + after), other)
    ensures MarketsMatch(other, Join(before + [noise] + after)) == MarketsMatch(other, Join(before + after))
  {
    KeyWordsDropNoise(before, noise, after);
  }
}

=== FILE: value_scanner.dfy ===
/**
  `valuescanner`: mispricing ("value") signals per market
  (`find_mispriced_markets`), near-certain markets
  (`find_extreme_probabilities`), the volume/liquidity filter
  (`find_high_liquidity_value`) and the report of `scan_all_value`.

  The fair value of one side is one dollar minus the other side's ask; the
  edge is the fair value minus the side's own ask. Both sides therefore have
  the same edge, `1 - yesAsk - noAsk`.
 */
module ValueScanner {

  import opened Markets
  import opened Sorting

  /** `min_edge`: 5 cents on the dollar. */
  const DefaultMinEdge: real := 0.05

  /** Default `threshold` of `find_extreme_probabilities`. */
  const DefaultExtremeThreshold: real := 0.9

  /** Default `min_volume` of `find_high_liquidity_value`. */
  const DefaultMinVolume: real := 1000.0

  datatype ValueBet = ValueBet(
    venue: Venue,
    market: string,
    side: Side,
    entryPrice: real,
    fairValue: real,
    edge: real,
    edgePct: real,
    expectedProfit: real,
    platformFee: real,
    gasFee: real,
    totalFees: real,
    netExpectedProfit: real,
    roiPct: real,
    volume: real,
    liquidity: real)

  datatype Confidence = HighYes | HighNo

  datatype Extreme = Extreme(
    venue: Venue,
    market: string,
    yesPrice: real,
    confidence: Confidence,
    volume: real,
    liquidity: real)

  function Other(side: Side): Side {
    match side
    case Yes => No
    case No => Yes
  }

  /** The ask of one side of a market. */
  function AskOf(m: Market, side: Side): real {
    match side
    case Yes => m.yesAsk
    case No => m.noAsk
  }

  /** The bid of one side of a market; only Kalshi uses it, as a tradability gate. */
  function BidOf(m: Market, side: Side): real {
    match side
    case Yes => m.yesBid
    case No => m.noBid
  }

  /** The edge shared by both sides: what buying YES and NO together saves on a dollar. */
  function SharedEdge(m: Market): real {
    Payout - m.yesAsk - m.noAsk
  }

  /**
    The economics of a reported value bet: the edge is fair value minus entry
    price and exceeds the minimum, the venue's fee is charged on the edge, and
    ROI is the net profit over the entry price (Polymarket: 0 for a
    non-positive price).
   */
  ghost predicate BetEconomics(b: ValueBet, minEdge: real) {
    && b.entryPrice != 0.0
    && b.edge == b.fairValue - b.entryPrice
    && b.edge > minEdge
    && b.edgePct == b.edge * 100.0
    && b.expectedProfit == b.edge
    && (b.venue == Kalshi ==> b.platformFee == KalshiFeeRate * b.edge && b.gasFee == 0.0)
    && (b.venue == Polymarket ==> b.platformFee == 0.0 && b.gasFee == PolymarketGas)
    && b.totalFees == b.platformFee + b.gasFee
    && b.netExpectedProfit == b.expectedProfit - b.totalFees
    && (b.venue == Kalshi ==> b.roiPct == b.netExpectedProfit / b.entryPrice * 100.0)
    && (b.venue == Polymarket ==>
          b.roiPct == if b.entryPrice > 0.0 then b.netExpectedProfit / b.entryPrice * 100.0 else 0.0)
  }

  /** A bet of `m` on `side`: priced at that side's ask, valued against the other side's ask. */
  ghost predicate BetOf(b: ValueBet, venue: Venue, m: Market) {
    && b.venue == venue && b.market == m.id
    && b.entryPrice == AskOf(m, b.side)
    && b.fairValue == Payout - AskOf(m, Other(b.side))
    && b.volume == m.volume && b.liquidity == m.liquidity
  }

  ghost predicate HasSide(bets: seq<ValueBet>, side: Side) {
    exists i :: 0 <= i < |bets| && bets[i].side == side
  }

  /** One side of the Kalshi branch of `find_mispriced_markets` (lines for YES, then NO). */
  function KalshiSide(m: Market, side: Side, minEdge: real): seq<ValueBet>
    requires m.yesAsk != 0.0 && m.noAsk != 0.0
  {
    if BidOf(m, side) > 0.0 then
      var price := AskOf(m, side);
      var fairValue := 1.0 - AskOf(m, Other(side));
      var edge := fairValue - price;
      if edge > minEdge then
        var expectedProfit := edge;
        var kalshiFee := expectedProfit * KalshiFeeRate;
        var netProfit := expectedProfit - kalshiFee;
        [ValueBet(Kalshi, m.id, side, price, fairValue, edge, edge * 100.0, expectedProfit,
                  kalshiFee, 0.0, kalshiFee, netProfit, (netProfit / price) * 100.0, m.volume, m.liquidity)]
      else []
    else []
  }

  /**
    The Kalshi branch of `find_mispriced_markets` for one market-details record:
    nothing without both asks; then the YES bet, then the NO bet, each only if
    that side has a bid and the shared edge beats the minimum.
   */
  function KalshiValueBets(m: Market, minEdge: real): (r: seq<ValueBet>)
    ensures |r| <= 2
    ensures m.yesAsk == 0.0 || m.noAsk == 0.0 ==> r == []
    ensures forall b :: b in r ==> BetEconomics(b, minEdge) && BetOf(b, Kalshi, m)
    ensures forall side :: HasSide(r, side) <==>
      m.yesAsk != 0.0 && m.noAsk != 0.0 && BidOf(m, side) > 0.0 && SharedEdge(m) > minEdge
    ensures |r| == 2 ==> r[0].side == Yes && r[1].side == No
  {
    if m.yesAsk != 0.0 && m.noAsk != 0.0 then
      var yes := KalshiSide(m, Yes, minEdge);
      var no := KalshiSide(m, No, minEdge);
      assert forall i :: 0 <= i < |yes| ==> yes[i].side == Yes;
      assert forall i :: 0 <= i < |no| ==> no[i].side == No;
      var r := yes + no;
      assert forall side :: HasSide(r, side) <==> (side == Yes && |yes| > 0) || (side == No && |no| > 0) by {
        forall side ensures HasSide(r, side) <==> (side == Yes && |yes| > 0) || (side == No && |no| > 0) {
          if side == Yes && |yes| > 0 { assert r[0].side == Yes; }
          if side == No && |no| > 0 { assert r[|yes|].side == No; }
        }
      }
      r
    else []
  }

  /** One side of the Polymarket branch of `find_mispriced_markets`. */
  function PolymarketSide(m: Market, side: Side, minEdge: real): seq<ValueBet>
    requires m.yesAsk != 0.0 && m.noAsk != 0.0
  {
    var price := AskOf(m, side);
    var fairValue := 1.0 - AskOf(m, Other(side));
    var edge := fairValue - price;
    if edge > minEdge then
      var expectedProfit := edge;
      var gasFee := PolymarketGas;
      var netProfit := expectedProfit - gasFee;
      [ValueBet(Polymarket, m.id, side, price, fairValue, edge, edge * 100.0, expectedProfit,
                0.0, gasFee, gasFee, netProfit,
                if price > 0.0 then (netProfit / price) * 100.0 else 0.0, m.volume, m.liquidity)]
    else []
  }

  /**
    The Polymarket branch of `find_mispriced_markets` for one market: nothing
    without both prices; otherwise the YES bet, then the NO bet, each when the
    shared edge beats the minimum. There is no bid gate.
   */
  function PolymarketValueBets(m: Market, minEdge: real): (r: seq<ValueBet>)
    ensures |r| <= 2
    ensures m.yesAsk == 0.0 || m.noAsk == 0.0 ==> r == []
    ensures forall b :: b in r ==> BetEconomics(b, minEdge) && BetOf(b, Polymarket, m)
    ensures forall side :: HasSide(r, side) <==> m.yesAsk != 0.0 && m.noAsk != 0.0 && SharedEdge(m) > minEdge
    ensures |r| == 2 ==> r[0].side == Yes && r[1].side == No
  {
    if m.yesAsk != 0.0 && m.noAsk != 0.0 then
      var yes := PolymarketSide(m, Yes, minEdge);
      var no := PolymarketSide(m, No, minEdge);
      assert forall i :: 0 <= i < |yes| ==> yes[i].side == Yes;
      assert forall i :: 0 <= i < |no| ==> no[i].side == No;
      var r := yes + no;
      assert forall side :: HasSide(r, side) <==> (side == Yes && |yes| > 0) || (side == No && |no| > 0) by {
        forall side ensures HasSide(r, side) <==> (side == Yes && |yes| > 0) || (side == No && |no| > 0) {
          if side == Yes && |yes| > 0 { assert r[0].side == Yes; }
          if side == No && |no| > 0 { assert r[|yes|].side == No; }
        }
      }
      r
    else []
  }

  function ValueBetsOf(venue: Venue, m: Market, minEdge: real): seq<ValueBet> {
    match venue
    case Kalshi => KalshiValueBets(m, minEdge)
    case Polymarket => PolymarketValueBets(m, minEdge)
  }

  /** A market never yields the same bet twice: its two bets are on different sides. */
  lemma ValueBetsOnce(venue: Venue, m: Market, minEdge: real, b: ValueBet)
    ensures multiset(ValueBetsOf(venue, m, minEdge))[b] == if b in ValueBetsOf(venue, m, minEdge) then 1 else 0
  {
  }

  /** How many markets of `ms` yield bet `b`. */
  ghost function BetCount(venue: Venue, ms: seq<Market>, minEdge: real, b: ValueBet): nat {
    if |ms| == 0 then 0
    else (if b in ValueBetsOf(venue, ms[0], minEdge) then 1 else 0) + BetCount(venue, ms[1..], minEdge, b)
  }

  /** The loop of `find_mispriced_markets`: each market's bets, markets in order. */
  function ValueCandidates(venue: Venue, ms: seq<Market>, minEdge: real): (r: seq<ValueBet>)
    ensures |r| <= 2 * |ms|
    ensures forall b :: b in r <==> exists i :: 0 <= i < |ms| && b in ValueBetsOf(venue, ms[i], minEdge)
    ensures forall b :: multiset(r)[b] == BetCount(venue, ms, minEdge, b)
  {
    if |ms| == 0 then []
    else
      var here := ValueBetsOf(venue, ms[0], minEdge);
      var rest := ValueCandidates(venue, ms[1..], minEdge);
      forall b ensures b in here + rest <==> exists i :: 0 <= i < |ms| && b in ValueBetsOf(venue, ms[i], minEdge) {
        if b in rest {
          var i :| 0 <= i < |ms[1..]| && b in ValueBetsOf(venue, ms[1..][i], minEdge);
          assert ms[1..][i] == ms[i + 1];
        }
        if exists i :: 0 <= i < |ms| && b in ValueBetsOf(venue, ms[i], minEdge) {
          var i :| 0 <= i < |ms| && b in ValueBetsOf(venue, ms[i], minEdge);
          if i > 0 {
            assert ms[1..][i - 1] == ms[i];
          }
        }
      }
      forall b ensures multiset(here + rest)[b] == BetCount(venue, ms, minEdge, b) {
        ValueBetsOnce(venue, ms[0], minEdge, b);
        assert multiset(here + rest) == multiset(here) + multiset(rest);
      }
      here + rest
  }

  function EdgeKey(b: ValueBet): real { b.edgePct }

  /**
    `find_mispriced_markets(platform)`: every market's value bets, sorted by
    edge percentage, highest first, ties in market order (YES before NO).
   */
  function FindMispricedMarkets(venue: Venue, ms: seq<Market>, minEdge: real): (r: seq<ValueBet>)
    ensures SortedDesc(r, EdgeKey)
    ensures multiset(r) == multiset(ValueCandidates(venue, ms, minEdge))
    ensures forall k :: WithKey(r, EdgeKey, k) == WithKey(ValueCandidates(venue, ms, minEdge), EdgeKey, k)
    ensures |r| <= 2 * |ms|
    ensures forall b :: b in r <==> exists i :: 0 <= i < |ms| && b in ValueBetsOf(venue, ms[i], minEdge)
    ensures forall b :: b in r ==> BetEconomics(b, minEdge) && b.venue == venue
  {
    var c := ValueCandidates(venue, ms, minEdge);
    var r := SortDesc(c, EdgeKey);
    forall b ensures b in r <==> b in c {
      assert b in r <==> b in multiset(r);
    }
    forall b | b in r ensures BetEconomics(b, minEdge) && b.venue == venue {
      var i :| 0 <= i < |ms| && b in ValueBetsOf(venue, ms[i], minEdge);
    }
    r
  }

  // ---- Extreme probabilities ----

  /**
    One market of `find_extreme_probabilities`: flagged when its YES ask lies
    above the threshold or below one minus it, i.e. further than
    `threshold - 0.5` from an even 0.5. A zero (missing) YES ask is not excluded.
   */
  function ExtremeOf(venue: Venue, m: Market, threshold: real): (r: Option<Extreme>)
    ensures r.Some? <==> Abs(m.yesAsk - 0.5) > threshold - 0.5
    ensures r.Some? ==> r.value.venue == venue && r.value.market == m.id && r.value.yesPrice == m.yesAsk
                        && r.value.volume == m.volume && r.value.liquidity == m.liquidity
    ensures r.Some? ==> (r.value.confidence == HighYes <==> m.yesAsk > threshold)
    ensures r.Some? && r.value.confidence == HighNo ==> m.yesAsk < 1.0 - threshold
  {
    var yesPrice := m.yesAsk;
    if yesPrice > threshold || yesPrice < 1.0 - threshold then
      Some(Extreme(venue, m.id, yesPrice, if yesPrice > threshold then HighYes else HighNo,
                   m.volume, m.liquidity))
    else None
  }

  ghost function ExtremeCount(venue: Venue, ms: seq<Market>, threshold: real): nat {
    if |ms| == 0 then 0
    else (if ExtremeOf(venue, ms[0], threshold).Some? then 1 else 0) + ExtremeCount(venue, ms[1..], threshold)
  }

  /** How many markets of `ms` are flagged as the entry `e`. */
  ghost function ExtremeOccurrences(venue: Venue, ms: seq<Market>, threshold: real, e: Extreme): nat {
    if |ms| == 0 then 0
    else (if ExtremeOf(venue, ms[0], threshold) == Some(e) then 1 else 0) + ExtremeOccurrences(venue, ms[1..], threshold, e)
  }

  /** The loop of `find_extreme_probabilities`: flagged markets in market order. */
  function ExtremeCandidates(venue: Venue, ms: seq<Market>, threshold: real): (r: seq<Extreme>)
    ensures |r| == ExtremeCount(venue, ms, threshold)
    ensures forall e :: e in r <==> exists i :: 0 <= i < |ms| && ExtremeOf(venue, ms[i], threshold) == Some(e)
    ensures forall e :: multiset(r)[e] == ExtremeOccurrences(venue, ms, threshold, e)
  {
    if |ms| == 0 then []
    else
      var here := ExtremeOf(venue, ms[0], threshold);
      var rest := ExtremeCandidates(venue, ms[1..], threshold);
      var head := if here.Some? then [here.value] else [];
      var r := head + rest;
      assert forall i :: 1 <= i < |ms| ==> ms[1..][i - 1] == ms[i];
      forall e ensures multiset(r)[e] == ExtremeOccurrences(venue, ms, threshold, e) {
        assert multiset(r) == multiset(head) + multiset(rest);
      }
      r
  }

  /** Distance of the YES price from an even 0.5. */
  function ExtremeKey(e: Extreme): real { Abs(e.yesPrice - 0.5) }

  /**
    `find_extreme_probabilities(platform, threshold)`: the flagged markets, most
    lopsided first, ties in market order.
   */
  function FindExtremeProbabilities(venue: Venue, ms: seq<Market>, threshold: real): (r: seq<Extreme>)
    ensures SortedDesc(r, ExtremeKey)
    ensures multiset(r) == multiset(ExtremeCandidates(venue, ms, threshold))
    ensures forall k :: WithKey(r, ExtremeKey, k) == WithKey(ExtremeCandidates(venue, ms, threshold), ExtremeKey, k)
    ensures |r| == ExtremeCount(venue, ms, threshold)
    ensures forall e :: e in r <==> exists i :: 0 <= i < |ms| && ExtremeOf(venue, ms[i], threshold) == Some(e)
    ensures forall e :: e in r ==> ExtremeKey(e) > threshold - 0.5
  {
    var c := ExtremeCandidates(venue, ms, threshold);
    var r := SortDesc(c, ExtremeKey);
    forall e ensures e in r <==> e in c {
      assert e in r <==> e in multiset(r);
    }
    r
  }

  // ---- Liquidity filter ----

  predicate Liquid(b: ValueBet, minVolume: real) {
    b.volume > minVolume || b.liquidity > minVolume
  }

  /** `a` is `b` with some elements left out, the rest in their order (matched greedily). */
  ghost predicate IsSubsequence<T>(a: seq<T>, b: seq<T>)
    decreases |b|
  {
    if |a| == 0 then true
    else if |b| == 0 then false
    else if a[0] == b[0] then IsSubsequence(a[1..], b[1..])
    else IsSubsequence(a, b[1..])
  }

  /**
    The filter of `find_high_liquidity_value`: the bets whose volume or whose
    liquidity exceeds `minVolume`, in their original order.
   */
  function FilterLiquid(bets: seq<ValueBet>, minVolume: real): (r: seq<ValueBet>)
    ensures |r| <= |bets|
    ensures IsSubsequence(r, bets)
    ensures forall b :: b in r <==> b in bets && Liquid(b, minVolume)
    ensures forall b :: multiset(r)[b] == if Liquid(b, minVolume) then multiset(bets)[b] else 0
  {
    if |bets| == 0 then []
    else
      var rest := FilterLiquid(bets[1..], minVolume);
      assert bets == [bets[0]] + bets[1..];
      if Liquid(bets[0], minVolume) then
        assert ([bets[0]] + rest)[1..] == rest;
        [bets[0]] + rest
      else
        rest
  }

  /** Filtering a ranked list leaves it ranked. */
  lemma {:induction false} FilterLiquidKeepsOrder(bets: seq<ValueBet>, minVolume: real)
    requires SortedDesc(bets, EdgeKey)
    ensures SortedDesc(FilterLiquid(bets, minVolume), EdgeKey)
  {
    if |bets| > 0 {
      SortedTail(bets, EdgeKey);
      FilterLiquidKeepsOrder(bets[1..], minVolume);
      var rest := FilterLiquid(bets[1..], minVolume);
      forall j | 0 <= j < |rest| ensures EdgeKey(bets[0]) >= EdgeKey(rest[j]) {
        assert rest[j] in bets[1..];
        var i :| 0 <= i < |bets[1..]| && bets[1..][i] == rest[j];
        assert bets[1..][i] == bets[i + 1];
      }
    }
  }

  /** Filtering twice keeps what filtering once keeps. */
  lemma {:induction false} FilterLiquidIdempotent(bets: seq<ValueBet>, minVolume: real)
    ensures FilterLiquid(FilterLiquid(bets, minVolume), minVolume) == FilterLiquid(bets, minVolume)
  {
    if |bets| > 0 {
      FilterLiquidIdempotent(bets[1..], minVolume);
      var rest := FilterLiquid(bets[1..], minVolume);
      if Liquid(bets[0], minVolume) {
        assert ([bets[0]] + rest)[1..] == rest;
      }
    }
  }

  // ---- The report ----

  datatype ValueSummary = ValueSummary(
    totalValueOpportunities: nat,
    totalExtremeProbabilities: nat,
    totalLiquidValue: nat)

  datatype ValueReport = ValueReport(
    kalshiValue: seq<ValueBet>,
    polymarketValue: seq<ValueBet>,
    kalshiExtremes: seq<Extreme>,
    polymarketExtremes: seq<Extreme>,
    kalshiLiquidValue: seq<ValueBet>,
    polymarketLiquidValue: seq<ValueBet>,
    summary: ValueSummary)

  /**
    `scan_all_value` over one snapshot of each venue: Kalshi market-details
    records (fractions) and Polymarket simplified records, with the default
    extreme threshold and minimum volume.
   */
  function ScanAllValue(kalshiMarkets: seq<Market>, polymarketMarkets: seq<Market>, minEdge: real): (r: ValueReport)
    ensures r.kalshiValue == FindMispricedMarkets(Kalshi, kalshiMarkets, minEdge)
    ensures r.polymarketValue == FindMispricedMarkets(Polymarket, polymarketMarkets, minEdge)
    ensures r.kalshiExtremes == FindExtremeProbabilities(Kalshi, kalshiMarkets, DefaultExtremeThreshold)
    ensures r.polymarketExtremes == FindExtremeProbabilities(Polymarket, polymarketMarkets, DefaultExtremeThreshold)
    ensures r.kalshiLiquidValue == FilterLiquid(r.kalshiValue, DefaultMinVolume)
    ensures r.polymarketLiquidValue == FilterLiquid(r.polymarketValue, DefaultMinVolume)
    ensures r.summary.totalValueOpportunities == |r.kalshiValue| + |r.polymarketValue|
    ensures r.summary.totalExtremeProbabilities == |r.kalshiExtremes| + |r.polymarketExtremes|
    ensures r.summary.totalLiquidValue == |r.kalshiLiquidValue| + |r.polymarketLiquidValue|
    ensures r.summary.totalLiquidValue <= r.summary.totalValueOpportunities
    ensures r.summary.totalValueOpportunities <= 2 * (|kalshiMarkets| + |polymarketMarkets|)
    ensures r.summary.totalExtremeProbabilities
            == ExtremeCount(Kalshi, kalshiMarkets, DefaultExtremeThreshold)
             + ExtremeCount(Polymarket, polymarketMarkets, DefaultExtremeThreshold)
    ensures IsSubsequence(r.kalshiLiquidValue, r.kalshiValue)
    ensures IsSubsequence(r.polymarketLiquidValue, r.polymarketValue)
    ensures SortedDesc(r.kalshiValue, EdgeKey) && SortedDesc(r.polymarketValue, EdgeKey)
    ensures SortedDesc(r.kalshiLiquidValue, EdgeKey) && SortedDesc(r.polymarketLiquidValue, EdgeKey)
    ensures SortedDesc(r.kalshiExtremes, ExtremeKey) && SortedDesc(r.polymarketExtremes, ExtremeKey)
  {
    var kalshiValue := FindMispricedMarkets(Kalshi, kalshiMarkets, minEdge);
    var polymarketValue := FindMispricedMarkets(Polymarket, polymarketMarkets, minEdge);
    var kalshiExtremes := FindExtremeProbabilities(Kalshi, kalshiMarkets, DefaultExtremeThreshold);
    var polymarketExtremes := FindExtremeProbabilities(Polymarket, polymarketMarkets, DefaultExtremeThreshold);
    var kalshiLiquid := FilterLiquid(kalshiValue, DefaultMinVolume);
    var polymarketLiquid := FilterLiquid(polymarketValue, DefaultMinVolume);
    FilterLiquidKeepsOrder(kalshiValue, DefaultMinVolume);
    FilterLiquidKeepsOrder(polymarketValue, DefaultMinVolume);
    ValueReport(kalshiValue, polymarketValue, kalshiExtremes, polymarketExtremes, kalshiLiquid, polymarketLiquid,
                ValueSummary(|kalshiValue| + |polymarketValue|, |kalshiExtremes| + |polymarketExtremes|,
                             |kalshiLiquid| + |polymarketLiquid|))
  }

  // ---- Properties relating several calls ----

  /** Every value bet of a market, YES or NO, carries the same edge: `1 - yes - no`. */
  lemma EdgesAgree(venue: Venue, m: Market, minEdge: real)
    ensures forall b :: b in ValueBetsOf(venue, m, minEdge) ==> b.edge == SharedEdge(m)
  {
  }

  /** Without the Kalshi bid gate a market yields both bets or neither. */
  lemma PolymarketBothOrNeither(m: Market, minEdge: real)
    ensures |PolymarketValueBets(m, minEdge)| == 0 || |PolymarketValueBets(m, minEdge)| == 2
  {
  }

  /** A Kalshi market with bids on both sides also yields both bets or neither. */
  lemma KalshiBothOrNeither(m: Market, minEdge: real)
    requires m.yesBid > 0.0 && m.noBid > 0.0
    ensures |KalshiValueBets(m, minEdge)| == 0 || |KalshiValueBets(m, minEdge)| == 2
  {
  }

  /** A market with a zero (missing) YES ask is flagged, as near-certain NO, for any threshold below 1. */
  lemma ZeroYesFlaggedHighNo(venue: Venue, m: Market, threshold: real)
    requires m.yesAsk == 0.0 && threshold < 1.0
    ensures ExtremeOf(venue, m, threshold).Some?
    ensures ExtremeOf(venue, m, threshold).value.confidence == HighNo <==> threshold >= 0.0
  {
  }
}
